=== FILE: README.md ===
# my::Vector in Dafny

This project models `my::Vector<T>`, a growable contiguous array, and its raw storage
`my::VectorBase<T>`. It proves the container's promises about the model.

The model has five modules:

- `Growth` (growth.dfy) holds the capacity arithmetic. It gives the allocation bound
  `UINT_MAX / sizeof(T)` and the growth rule of `expandCapacity`,
  `max(min, max(16, cap + cap/4 + 1))`. It also defines the capacity and the number of
  reallocations after `n` `push_back` calls on an empty vector. It proves the amortized bound:
  the number of reallocations k satisfies (5/4)^(k-1) <= (2n + 16) / 16, so it is O(log n).
- `VectorOperations` (vector_operations.dfy) holds `copy`, the one typed range operation that
  changes values. It is a front-to-back loop.
- `Storage` (vector_base.dfy) holds the class `VectorBase`: a nullable `array<T>` buffer, its
  capacity, and the size of one element. Its invariant is that capacity 0 goes with a null buffer,
  and that a buffer has exactly `capacity` slots, a count that can be allocated.
- `DynamicArray` (vector.dfy) holds the class `Vector`. It composes a `VectorBase` with the
  logical `size` and a ghost `Contents`, the live elements. Its invariant is `size <= capacity`,
  with `Contents` equal to the first `size` slots of the buffer. Every mutating method states the
  new `Contents`, size and capacity in terms of the old ones. It also states whether the buffer is
  kept or replaced by a fresh one; a fresh buffer means earlier element addresses are invalid.
- `Scenarios` (scenarios.dfy) holds clients that replay the unit tests and the demo program
  using only the container's contracts.

The C++ inheritance `Vector : VectorBase` becomes composition: `Vector` has a `const base` field.
`sizeof(T)` becomes the `elementSize` constant of a `VectorBase`, a positive number chosen when
the vector is created.

## Model

| member | source | states |
|---|---|---|
| Growth.MaxCapacity | Source/Vector.h:125-133 | The allocation bound is the largest n such that n * sizeof(T) still fits a 32-bit unsigned. |
| Growth.NewCapacity | Source/Vector.h:269-274 | The new capacity is at least each of the three candidates (the requested minimum, 16, and cap + cap/4 + 1) and equals one of them, so it is exactly their maximum. Hence it is strictly above the old capacity and at least 5/4 of it. |
| Growth.PushCapacityBounds | Source/Vector.h:290-311 | After n appends to an empty vector the capacity holds all n elements. Once n > 0 it is at least 16 and at most 2n + 16. |
| Growth.PushCapacityMonotone | Source/Vector.h:290-311 | Capacity never decreases along a run of appends. |
| Growth.ReallocationsGrowCapacity | Source/Vector.h:290-311 | No appends means no reallocation, and any append means at least one. After k reallocations, the capacity is at least MinCapacityAfter(k): each slow path is at least one step of the growth rule. |
| Growth.ReallocationsLogarithmic | Source/Vector.h:269-274 | n appends to an empty vector take no more reallocations k than growth steps fit below 2n + 16: MinCapacityAfter(k) <= 2n + 16. |
| Growth.MinCapacityGeometric | Source/Vector.h:269-274 | The growth steps are geometric from 16 with ratio at least 5/4: 16 * 5^(k-1) <= 4^(k-1) * MinCapacityAfter(k). |
| Growth.ReallocationsBound | Source/Vector.h:269-274 | n > 0 appends to an empty vector take k >= 1 reallocations with 16 * 5^(k-1) <= 4^(k-1) * (2n + 16), so k is O(log n). |
| VectorOperations.Copy | Source/Vector.h:59-82 | The destination's first `count` slots equal the source's, and the rest of the destination is untouched. An empty range may have null ends. |
| Storage.VectorBase.constructor | Source/Vector.h:107-110 | A default storage has a null buffer and capacity 0. |
| Storage.VectorBase.WithCapacity | Source/Vector.h:112-118 | Storage built with capacity c has capacity c. Its buffer is fresh when c > 0 and null when c == 0. |
| Storage.VectorBase.AllocateBuffer | Source/Vector.h:125-133 | It requires 0 < n <= UINT_MAX / sizeof(T). Afterwards the capacity is exactly n and a fresh buffer of n slots is held. |
| Storage.VectorBase.DeallocateBuffer | Source/Vector.h:135-140 | Afterwards no buffer is held and the capacity is 0. |
| DynamicArray.Vector.constructor | Source/Vector.h:172-174 | A new vector is empty, with capacity 0 and a null buffer. |
| DynamicArray.Vector.CopyOf | Source/Vector.h:225-232 | The copy has the same size, capacity and elements as the original, and all of its storage is fresh. |
| DynamicArray.Vector.Size | Source/Vector.h:186 | `size()` is the number of live elements. |
| DynamicArray.Vector.Capacity | Source/Vector.h:185 | `capacity()` is never below the size, and it is 0 exactly when there is no buffer. |
| DynamicArray.Vector.IsEmpty | Source/Vector.h:187 | `isEmpty()` is true exactly when there are no live elements. |
| DynamicArray.Vector.At | Source/Vector.h:189-199 | `at(i)` requires i < size() and returns the i-th live element. |
| DynamicArray.Vector.Set | Source/Vector.h:189-193 | A write through the reference that `at(i)` or `operator[]` returns requires i < size(). It replaces the i-th element only; size, capacity and buffer are unchanged. |
| DynamicArray.Vector.ReserveCapacity | Source/Vector.h:276-288 | With capacity >= n nothing changes, buffer included. Otherwise the capacity becomes exactly n in a fresh buffer. Size and elements are unchanged either way. |
| DynamicArray.Vector.Reserve | Source/Vector.h:255-259 | Same as reserveCapacity: the capacity becomes max(old capacity, n), and size and elements are unchanged. The buffer is unchanged when the capacity suffices and fresh otherwise. |
| DynamicArray.Vector.ExpandCapacity | Source/Vector.h:269-274 | The capacity becomes NewCapacity(old capacity, min) in a fresh buffer. Size and elements are unchanged. |
| DynamicArray.Vector.PushBack | Source/Vector.h:290-300 | The elements become the old ones followed by x, and the size grows by one. With a spare slot, capacity and buffer are unchanged; with a full buffer the capacity becomes NewCapacity(size, size + 1) in a fresh buffer. |
| DynamicArray.Vector.PushBackSlowCase | Source/Vector.h:302-311 | It requires size == capacity. It appends x after growing the capacity to NewCapacity(capacity, size + 1), which is at least size + 1, in a fresh buffer. |
| DynamicArray.Vector.Resize | Source/Vector.h:241-253 | Afterwards size == n. If n <= size, the elements are the old first n, and capacity and buffer are unchanged. If n > size, the old elements stay in front. The capacity and buffer are unchanged when n <= capacity; otherwise the capacity becomes NewCapacity(capacity, n) in a fresh buffer. |
| DynamicArray.Vector.Shrink | Source/Vector.h:261-267 | It requires n <= size. Afterwards size == n, the elements are the old first n, and capacity and buffer are unchanged. |
| DynamicArray.Vector.Destroy | Source/Vector.h:234-239 | Destruction (`~Vector` here, then `~VectorBase` with its `deallocateBuffer()` at Source/Vector.h:120-123) leaves no live elements, capacity 0 and no buffer. |
| DynamicArray.Vector.Assign | Source/Vector.h:313-324 | The intended copy assignment (see Left out). Afterwards the elements and size equal other's, and other is untouched. The capacity is kept when it already holds other's size; otherwise it becomes NewCapacity(0, other's capacity) in a fresh buffer. |
| Scenarios.BuildByPushBack | UnitTests/UnitTest_Vector.cpp:11-18 | Appending xs one by one to an empty vector yields exactly xs, with capacity PushCapacity of the length of xs. The number of appends that replaced the buffer is Reallocations(\|xs\|), so for nonempty xs it is at least 1 and obeys the O(log n) bound of ReallocationsBound. |
| Scenarios.PushAllInPlace | UnitTests/UnitTest_Vector.cpp:11-18 | Appending to a vector with room for everything yields old elements + xs, with capacity and buffer unchanged. |
| Scenarios.PushThree | src/Main.cpp:21-28 | Pushing 10, 12 and 14 gives exactly [10, 12, 14] with capacity 16. |
| Scenarios.ResizeFromEmpty | UnitTests/UnitTest_Vector.cpp:37-45 | `resize(5)` on an empty vector gives size 5 and capacity 16. |
| Scenarios.ResizeDownAfterPushes | UnitTests/UnitTest_Vector.cpp:47-60 | After 20 appends, `resize(10)` keeps the first ten appended values. |
| Scenarios.ResizeUpAfterPushes | UnitTests/UnitTest_Vector.cpp:62-75 | After 10 appends, `resize(20)` gives size 20, with the ten appended values in front. |
| Scenarios.ReserveOnEmpty | UnitTests/UnitTest_Vector.cpp:79-83 | `reserve(16)` on an empty vector gives size 0 and capacity exactly 16. |
| Scenarios.ReserveThenPush | UnitTests/UnitTest_Vector.cpp:85-94 | After `reserve(16)` and 8 appends, `reserve(30)` gives capacity exactly 30 and keeps the 8 values in order. |
| Scenarios.CopyIsIndependent | Source/Vector.h:225-232 | After copy construction, appending to either vector leaves the other's elements as they were, and the two share no objects. |

## Left out

- `malloc`, `free`, placement `new` with `NotNullTag` and explicit destructor calls are not modelled. Allocation is a fresh Dafny array and release is a no-op. An allocation failure (a null result from `malloc`) is not modelled.
- `deallocateBuffer(T*)`, which frees the old block in `reserveCapacity`, only releases memory and is not modelled.
- Compile-time dispatch on `std::is_pod` and `std::is_trivially_destructible` is not modelled. `memcpy` and element-wise assignment give the same values, so `VectorOperations.Copy` is one loop.
- `initialize` and `destruct` change no element value in a value model. So `resize` and `shrink` leave the slots they expose or drop as they are. The exposed tail after a growing `resize` is unconstrained, which is what the no-op `initialize` gives for plain-old-data types. Default construction of non-trivial types is not modelled.
- The test comparisons after `resize(5)` and `resize(20)` against a zero-filled standard vector are not implied. The source leaves that tail uninitialised for plain-old-data types, so only the sizes and the preserved prefix are proved.
- `begin`, `end`, `data`, the `operator[]` overloads and the const overloads are not modelled as pointers. Reading through `at` or `operator[]` is `At`, writing through the returned reference is `Set`, and `data()` is the `buffer` field. The `buffer()` and `capacity()` accessors of the storage are its fields.
- `size_t` versus `unsigned` widths: the model assumes a 64-bit `size_t`. Under that assumption the capacity never exceeds `UINT_MAX / sizeof(T)` and the size never exceeds the capacity. So the `size_t` sum `cap + cap/4 + 1` in `expandCapacity` cannot wrap, and storing a size in the 32-bit `m_size` cannot truncate under the preconditions. With a 32-bit `size_t` the sum would be 32-bit arithmetic and could wrap once the capacity is near `UINT_MAX` (for 1-byte elements). The growth preconditions (`NewCapacity(...) <= MaxCapacity(sizeof(T))`) keep the model clear of that case, so that wrap-around is not modelled.
- The destructor runs implicitly in C++. Here it is the explicit method `Destroy`.
- DynamicArray.Vector.Assign: `operator=` as written never updates `m_size` and returns no value. In the reallocating branch, `deallocateBuffer()` nulls the buffer and sets the capacity to 0 but keeps `m_size` (Source/Vector.h:137-139). So `reserveCapacity` takes a null `begin()` and an `end()` of `nullptr + m_size`, and copies `m_size` elements from a null pointer (Source/Vector.h:282-286). This faults when the old size is nonzero. The model drops the old elements (size 0) instead, then grows and copies other's elements. Self-assignment and overlapping storage are excluded by requiring disjoint footprints. The capacity in the reallocating branch follows the code, which applies the growth rule to other's capacity from a capacity of 0: it is max(other's capacity, 16).
- DynamicArray.Vector.PushBack: the source's `push_back(const T& data)` takes its argument by reference (Source/Vector.h:291, 303); the model takes `x` by value. On the slow path, `reserveCapacity` frees the old block (Source/Vector.h:287) before `*end() = data` reads `data` (Source/Vector.h:309). So appending an element of the same full vector, for example `v.push_back(v[0])` with 16 ints at capacity 16, reads released memory in the source. The model's `Contents == old(Contents) + [x]` holds for a copy of that element taken before the call, not for the source's reference, which can dangle. DynamicArray.Vector.PushBackSlowCase takes `x` by value for the same reason.
- VectorOperations.Copy: overlapping source and destination blocks are excluded, as the source's `memcpy` path assumes.
- The demo's console output, random test values and the `float`/`double` element types of the tests are not modelled. The scenarios use `int` with a 4-byte element size.

=== FILE: growth.dfy ===
/** Capacity arithmetic of my::Vector: the allocation bound of VectorBase and
    the growth rule of Vector::expandCapacity, with the amortized bound it
    gives for a run of push_back calls. */
module Growth {

  /** The largest value of the 32-bit `unsigned` that holds a capacity. */
  const UINT_MAX: nat := 0xFFFF_FFFF

  /** sizeof(T): the number of bytes of one element, never zero. */
  type ElementSize = n: nat | n > 0 witness 1

  function Max(a: nat, b: nat): nat
  {
    if a >= b then a else b
  }

  /** The largest capacity allocateBuffer accepts for elements of the given
      size: the byte count capacity * sizeof(T) still fits an `unsigned`. */
  function MaxCapacity(elementSize: ElementSize): (m: nat)
    ensures m <= UINT_MAX
    ensures m * elementSize <= UINT_MAX < (m + 1) * elementSize
  {
    UINT_MAX / elementSize
  }

  /** The capacity expandCapacity asks for when at least `minCapacity` slots
      are needed and `capacity` slots are held: the caller's minimum, the
      floor of 16 and a 1.25x step, whichever is largest. */
  function NewCapacity(capacity: nat, minCapacity: nat): (r: nat)
    ensures r >= minCapacity && r >= 16 && r >= capacity + capacity / 4 + 1
    ensures r > capacity && 4 * r >= 5 * capacity
    ensures r == minCapacity || r == 16 || r == capacity + capacity / 4 + 1
  {
    Max(minCapacity, Max(16, capacity + capacity / 4 + 1))
  }

  /** The capacity of a vector that started empty after `n` push_back calls:
      the fast path keeps the capacity, the slow path (size == capacity)
      expands to at least size + 1. */
  function PushCapacity(n: nat): nat
  {
    if n == 0 then 0
    else
      var c := PushCapacity(n - 1);
      if n - 1 < c then c else NewCapacity(c, n)
  }

  /** How many of those `n` push_back calls took the slow path, each of which
      reallocates the buffer. */
  function Reallocations(n: nat): nat
  {
    if n == 0 then 0
    else Reallocations(n - 1) + (if n - 1 < PushCapacity(n - 1) then 0 else 1)
  }

  function Pow(b: nat, e: nat): (r: nat)
    ensures b > 0 ==> r > 0
  {
    if e == 0 then 1 else b * Pow(b, e - 1)
  }

  /** After n appends the capacity holds all n elements, and once anything has
      been appended it is at least the floor of 16 and at most 2n + 16. */
  lemma {:induction false} PushCapacityBounds(n: nat)
    ensures n <= PushCapacity(n)
    ensures n > 0 ==> 16 <= PushCapacity(n) <= 2 * n + 16
  {
    if n > 0 {
      PushCapacityBounds(n - 1);
    }
  }

  /** The capacity never decreases along a run of appends. */
  lemma {:induction false} PushCapacityMonotone(i: nat, j: nat)
    requires i <= j
    ensures PushCapacity(i) <= PushCapacity(j)
  {
    if i < j {
      PushCapacityMonotone(i, j - 1);
    }
  }

  /** An unfolding helper for the push_back loop of the scenarios: one more
      append keeps the capacity when there is a spare slot and applies the
      growth rule when the buffer is full. */
  lemma {:induction false} SlowPathWhenFull(n: nat)
    ensures n < PushCapacity(n) || n == PushCapacity(n)
    ensures n == PushCapacity(n) ==> PushCapacity(n + 1) == NewCapacity(n, n + 1)
    ensures n < PushCapacity(n) ==> PushCapacity(n + 1) == PushCapacity(n)
  {
  }

  lemma MulLeftMono(p: nat, a: nat, b: nat)
    requires a <= b
    ensures p * a <= p * b
  {
  }

  /** One reallocation step of the bound below: from 16 * p5 <= p4 * c and a
      new capacity c' with 4c' >= 5c follows 16 * (5 * p5) <= (4 * p4) * c'. */
  lemma GrowthStep(p4: nat, p5: nat, c: nat, c': nat)
    requires 16 * p5 <= p4 * c
    requires 5 * c <= 4 * c'
    ensures 16 * (5 * p5) <= (4 * p4) * c'
  {
  }

  /** The least capacity k growths can reach from an empty vector: every
      growth applies the rule, asking for no particular minimum. */
  function MinCapacityAfter(k: nat): nat
  {
    if k == 0 then 0 else NewCapacity(MinCapacityAfter(k - 1), 0)
  }

  /** The growth rule is monotone in the capacity it starts from. */
  lemma NewCapacityMonotone(c: nat, d: nat, m: nat)
    requires c <= d
    ensures NewCapacity(c, 0) <= NewCapacity(d, m)
  {
  }

  /** Each reallocation of a run of appends is at least one step of the rule:
      after k reallocations the capacity is at least MinCapacityAfter(k). */
  lemma {:induction false} ReallocationsGrowCapacity(n: nat)
    ensures Reallocations(n) == 0 <==> n == 0
    ensures MinCapacityAfter(Reallocations(n)) <= PushCapacity(n)
  {
    if n > 0 {
      ReallocationsGrowCapacity(n - 1);
      PushCapacityBounds(n - 1);
      var c, k := PushCapacity(n - 1), Reallocations(n - 1);
      if n - 1 >= c {
        assert PushCapacity(n) == NewCapacity(c, n) && Reallocations(n) == k + 1;
        NewCapacityMonotone(MinCapacityAfter(k), c, n);
      }
    }
  }

  /** The amortized growth bound: the reallocations of n appends to an empty
      vector are no more than the growth steps that fit below 2n + 16. */
  lemma ReallocationsLogarithmic(n: nat)
    ensures MinCapacityAfter(Reallocations(n)) <= 2 * n + 16
  {
    ReallocationsGrowCapacity(n);
    PushCapacityBounds(n);
  }

  /** The growth steps are geometric, from a floor of 16 with ratio at least
      5/4: 16 * 5^(k-1) <= 4^(k-1) * MinCapacityAfter(k). Together with
      ReallocationsLogarithmic, n appends reallocate O(log n) times. */
  lemma {:induction false} MinCapacityGeometric(k: nat)
    requires k > 0
    ensures 16 * Pow(5, k - 1) <= Pow(4, k - 1) * MinCapacityAfter(k)
  {
    if k > 1 {
      MinCapacityGeometric(k - 1);
      GrowthStep(Pow(4, k - 2), Pow(5, k - 2), MinCapacityAfter(k - 1), MinCapacityAfter(k));
      assert Pow(4, k - 1) == 4 * Pow(4, k - 2);
      assert Pow(5, k - 1) == 5 * Pow(5, k - 2);
    }
  }

  /** The amortized growth bound on reallocations: n > 0 appends to an empty
      vector reallocate k times with 16 * 5^(k-1) <= 4^(k-1) * (2n + 16),
      that is (5/4)^(k-1) <= (2n + 16) / 16, so k is O(log n). */
  lemma {:induction false} ReallocationsBound(n: nat)
    requires n > 0
    ensures Reallocations(n) > 0
    ensures 16 * Pow(5, Reallocations(n) - 1) <= Pow(4, Reallocations(n) - 1) * (2 * n + 16)
  {
    ReallocationsGrowCapacity(n);
    ReallocationsLogarithmic(n);
    MinCapacityGeometric(Reallocations(n));
    MulLeftMono(Pow(4, Reallocations(n) - 1), MinCapacityAfter(Reallocations(n)), 2 * n + 16);
  }
}

=== FILE: scenarios.dfy ===
/** Clients of my::Vector that replay the unit tests and the demo program,
    using only the contracts of the container. */
module Scenarios {
  import opened Growth
  import opened DynamicArray

  /** sizeof(int) on the platforms the tests target. */
  const IntSize: ElementSize := 4

  /** Appends the elements of xs one push_back at a time to a vector that
      starts empty: the result holds xs in order, and its capacity is the one
      the growth rule gives for |xs| appends. The ghost `reallocations`
      counts the push_back calls that replaced the buffer: it is
      Reallocations(|xs|), the count the amortized bound is proved about. */
  method BuildByPushBack<T(0)>(elementSize: ElementSize, xs: seq<T>)
    returns (v: Vector<T>, ghost reallocations: nat)
    requires PushCapacity(|xs|) <= MaxCapacity(elementSize)
    ensures v.Valid() && fresh(v.Repr)
    ensures v.Contents == xs && v.size == |xs|
    ensures v.base.capacity == PushCapacity(|xs|)
    ensures v.base.elementSize == elementSize
    ensures reallocations == Reallocations(|xs|)
    ensures |xs| > 0 ==> reallocations > 0
    ensures |xs| > 0 ==>
      16 * Pow(5, reallocations - 1) <= Pow(4, reallocations - 1) * (2 * |xs| + 16)
  {
    v := new Vector(elementSize);
    reallocations := 0;
    var i := 0;
    while i < |xs|
      invariant i <= |xs|
      invariant v.Valid() && fresh(v.Repr)
      invariant v.Contents == xs[..i] && v.size == i
      invariant v.base.capacity == PushCapacity(i)
      invariant v.base.elementSize == elementSize
      invariant reallocations == Reallocations(i)
    {
      SlowPathWhenFull(i);
      PushCapacityMonotone(i + 1, |xs|);
      ghost var before := v.base.buffer;
      v.PushBack(xs[i]);
      if v.base.buffer != before {
        reallocations := reallocations + 1;
      }
      i := i + 1;
    }
    assert xs[..i] == xs;
    if |xs| > 0 {
      ReallocationsBound(|xs|);
    }
  }

  /** Appends xs to a vector that has room for all of them: only the fast
      path of push_back runs, so the buffer and the capacity stay. */
  method PushAllInPlace<T(0)>(v: Vector<T>, xs: seq<T>)
    requires v.Valid() && v.size + |xs| <= v.base.capacity
    modifies v.Repr
    ensures v.Valid() && fresh(v.Repr - old(v.Repr))
    ensures v.Contents == old(v.Contents) + xs
    ensures v.base.capacity == old(v.base.capacity) && v.base.buffer == old(v.base.buffer)
  {
    var i := 0;
    while i < |xs|
      invariant i <= |xs|
      invariant v.Valid() && fresh(v.Repr - old(v.Repr))
      invariant v.Contents == old(v.Contents) + xs[..i]
      invariant v.size == old(v.size) + i
      invariant v.base.capacity == old(v.base.capacity) && v.base.buffer == old(v.base.buffer)
    {
      v.PushBack(xs[i]);
      assert xs[..i + 1] == xs[..i] + [xs[i]];
      i := i + 1;
    }
    assert xs[..i] == xs;
  }

  /** The demo program: push 10, 12 and 14, then read them back by index. */
  method PushThree() returns (v: Vector<int>)
    ensures v.Valid() && v.Contents == [10, 12, 14]
    ensures v.base.capacity == 16
  {
    PushCapacityBounds(3);
    ghost var reallocations;
    v, reallocations := BuildByPushBack(IntSize, [10, 12, 14]);
    assert v.Size() == 3;
    assert v.At(0) == 10 && v.At(1) == 12 && v.At(2) == 14;
  }

  /** resize(5) on an empty vector: five slots, the capacity floor of 16. */
  method ResizeFromEmpty() returns (v: Vector<int>)
    ensures v.Valid() && v.Size() == 5 && v.Capacity() == 16
  {
    v := new Vector(IntSize);
    v.Resize(5);
  }

  /** Twenty appends, then resize(10): the first ten elements remain. */
  method ResizeDownAfterPushes(xs: seq<int>) returns (v: Vector<int>)
    requires |xs| == 20
    ensures v.Valid() && v.Contents == xs[..10]
    ensures v.base.capacity == PushCapacity(20)
  {
    PushCapacityBounds(20);
    ghost var reallocations;
    v, reallocations := BuildByPushBack(IntSize, xs);
    v.Resize(10);
  }

  /** Ten appends, then resize(20): twenty elements, the ten appended first. */
  method ResizeUpAfterPushes(xs: seq<int>) returns (v: Vector<int>)
    requires |xs| == 10
    ensures v.Valid() && v.Size() == 20 && v.Contents[..10] == xs
  {
    PushCapacityBounds(10);
    ghost var reallocations;
    v, reallocations := BuildByPushBack(IntSize, xs);
    v.Resize(20);
  }

  /** reserve(16) on an empty vector: still empty, capacity exactly 16. */
  method ReserveOnEmpty() returns (v: Vector<int>)
    ensures v.Valid() && fresh(v.Repr)
    ensures v.Size() == 0 && v.Capacity() == 16 && v.base.elementSize == IntSize
  {
    v := new Vector(IntSize);
    v.Reserve(16);
  }

  /** After reserve(16) and eight appends, reserve(30) gives capacity exactly
      30 and keeps the eight elements in order. */
  method ReserveThenPush(xs: seq<int>) returns (v: Vector<int>)
    requires |xs| == 8
    ensures v.Valid() && v.Contents == xs
    ensures v.Capacity() == 30
  {
    v := ReserveOnEmpty();
    PushAllInPlace(v, xs);
    v.Reserve(30);
  }

  /** A copy shares nothing with its original: appending to either one leaves
      the other as it was. */
  method CopyIsIndependent<T(0)>(a: Vector<T>, x: T, y: T) returns (b: Vector<T>)
    requires a.Valid()
    requires a.size == a.base.capacity ==>
      NewCapacity(a.base.capacity, a.size + 1) <= MaxCapacity(a.base.elementSize)
    modifies a.Repr
    ensures a.Valid() && b.Valid() && a.Repr !! b.Repr
    ensures b.Contents == old(a.Contents) + [x]
    ensures a.Contents == old(a.Contents) + [y]
  {
    b := new Vector.CopyOf(a);
    b.PushBack(x);
    a.PushBack(y);
  }
}

=== FILE: vector.dfy ===
/** my::Vector: a growable contiguous array. It composes the raw storage of
    a VectorBase with a logical size; the slots [0, size) of the buffer hold
    the live elements, the slots [size, capacity) are spare. */
module DynamicArray {
  import opened Growth
  import opened Storage
  import VectorOperations

  class Vector<T(0)> {
    /** The storage this vector is built on (its base class in the source). */
    const base: VectorBase<T>
    /** m_size: the number of live elements. */
    var size: nat

    /** The live elements, in order. */
    ghost var Contents: seq<T>
    /** The objects this vector owns: itself, its storage and its buffer. */
    ghost var Repr: set<object>

    /** The container invariant: the storage is valid, size <= capacity, and
        the live elements are the first `size` slots of the buffer. */
    ghost predicate Valid()
      reads this, Repr
      ensures Valid() ==> this in Repr
    {
      this in Repr && base in Repr && base.Valid() &&
      base.BufferSet() <= Repr &&
      size <= base.capacity &&
      Contents == (if base.buffer == null then [] else base.buffer[..size])
    }

    /** Vector(): empty, with capacity 0 and no buffer. */
    constructor (elementSize: ElementSize)
      ensures Valid() && fresh(Repr)
      ensures Contents == [] && size == 0
      ensures base.capacity == 0 && base.buffer == null
      ensures base.elementSize == elementSize
    {
      base := new VectorBase(elementSize);
      size := 0;
      Contents := [];
      new;
      Repr := {this, base};
    }

    /** Vector(const Vector&): a new vector with the same size, the same
        capacity and equal elements, sharing no storage with `other`. */
    constructor CopyOf(other: Vector<T>)
      requires other.Valid()
      ensures Valid() && fresh(Repr)
      ensures Contents == other.Contents && size == other.size
      ensures base.capacity == other.base.capacity
      ensures base.elementSize == other.base.elementSize
    {
      base := new VectorBase.WithCapacity(other.base.elementSize, other.base.capacity);
      size := other.size;
      Contents := other.Contents;
      new;
      if base.buffer != null {
        VectorOperations.Copy(other.base.buffer, other.size, base.buffer);
      }
      Repr := {this, base} + base.BufferSet();
    }

    /** size(): the number of live elements. */
    function Size(): (n: nat)
      reads Repr
      requires Valid()
      ensures n == |Contents|
    {
      size
    }

    /** capacity(): the number of allocated slots, never below the size. */
    function Capacity(): (c: nat)
      reads Repr
      requires Valid()
      ensures |Contents| <= c
      ensures c == 0 <==> base.buffer == null
    {
      base.capacity
    }

    /** isEmpty(): whether there are no live elements. */
    function IsEmpty(): (b: bool)
      reads Repr
      requires Valid()
      ensures b <==> Contents == []
    {
      size == 0
    }

    /** at(idx): the live element at `idx`; idx < size() is required. */
    function At(idx: nat): (x: T)
      reads Repr
      requires Valid() && idx < size
      ensures x == Contents[idx]
    {
      base.buffer[idx]
    }

    /** Writing through the reference at(idx) returns: idx < size() is
        required; the element at idx becomes x and nothing else changes. */
    method Set(idx: nat, x: T)
      requires Valid() && idx < size
      modifies this, base.buffer
      ensures Valid() && Repr == old(Repr)
      ensures Contents == old(Contents)[idx := x]
      ensures size == old(size) && base.capacity == old(base.capacity)
      ensures base.buffer == old(base.buffer)
    {
      base.buffer[idx] := x;
      Contents := Contents[idx := x];
    }

    /** reserveCapacity(n): nothing changes when capacity >= n; otherwise a
        buffer of exactly n slots replaces the old one, and the live elements
        move into it in order. */
    method ReserveCapacity(newCapacity: nat)
      requires Valid()
      requires base.capacity < newCapacity ==> newCapacity <= MaxCapacity(base.elementSize)
      modifies Repr
      ensures Valid() && fresh(Repr - old(Repr))
      ensures Contents == old(Contents) && size == old(size)
      ensures base.capacity == Max(old(base.capacity), newCapacity)
      ensures old(base.capacity) >= newCapacity ==> base.buffer == old(base.buffer)
      ensures old(base.capacity) < newCapacity ==> fresh(base.buffer)
    {
      if base.capacity >= newCapacity {
        return;
      }
      var oldBuffer := base.buffer;
      base.AllocateBuffer(newCapacity);
      VectorOperations.Copy(oldBuffer, size, base.buffer);
      // The old buffer is released here; releasing memory is not modelled.
      Repr := Repr + base.BufferSet();
    }

    /** reserve(n): the public entry to reserveCapacity. */
    method Reserve(newCapacity: nat)
      requires Valid()
      requires base.capacity < newCapacity ==> newCapacity <= MaxCapacity(base.elementSize)
      modifies Repr
      ensures Valid() && fresh(Repr - old(Repr))
      ensures Contents == old(Contents) && size == old(size)
      ensures base.capacity == Max(old(base.capacity), newCapacity)
      ensures old(base.capacity) >= newCapacity ==> base.buffer == old(base.buffer)
      ensures old(base.capacity) < newCapacity ==> fresh(base.buffer)
    {
      ReserveCapacity(newCapacity);
    }

    /** expandCapacity(min): reallocates to the capacity of the growth rule,
        which always exceeds the current one, keeping the live elements. */
    method ExpandCapacity(newMinCapacity: nat)
      requires Valid()
      requires NewCapacity(base.capacity, newMinCapacity) <= MaxCapacity(base.elementSize)
      modifies Repr
      ensures Valid() && fresh(Repr - old(Repr))
      ensures Contents == old(Contents) && size == old(size)
      ensures base.capacity == NewCapacity(old(base.capacity), newMinCapacity)
      ensures fresh(base.buffer)
    {
      var newCapacity := NewCapacity(base.capacity, newMinCapacity);
      ReserveCapacity(newCapacity);
    }

    /** push_back(x): appends x. With a spare slot the buffer and capacity
        stay; with a full buffer the slow path grows it first. */
    method PushBack(x: T)
      requires Valid()
      requires size == base.capacity ==>
        NewCapacity(base.capacity, size + 1) <= MaxCapacity(base.elementSize)
      modifies Repr
      ensures Valid() && fresh(Repr - old(Repr))
      ensures Contents == old(Contents) + [x] && size == old(size) + 1
      ensures base.capacity ==
        if old(size) < old(base.capacity) then old(base.capacity)
        else NewCapacity(old(base.capacity), old(size) + 1)
      ensures old(size) < old(base.capacity) ==> base.buffer == old(base.buffer)
      ensures old(size) == old(base.capacity) ==> fresh(base.buffer)
    {
      if size < base.capacity {
        base.buffer[size] := x;
        size := size + 1;
        Contents := Contents + [x];
        assert Contents == base.buffer[..size];
        return;
      }
      PushBackSlowCase(x);
    }

    /** push_back_slowcase(x): entered only with a full buffer; grows it to
        hold at least size + 1 elements, then appends x. */
    method PushBackSlowCase(x: T)
      requires Valid() && size == base.capacity
      requires NewCapacity(base.capacity, size + 1) <= MaxCapacity(base.elementSize)
      modifies Repr
      ensures Valid() && fresh(Repr - old(Repr))
      ensures Contents == old(Contents) + [x] && size == old(size) + 1
      ensures base.capacity == NewCapacity(old(base.capacity), old(size) + 1)
      ensures base.capacity >= size && fresh(base.buffer)
    {
      ExpandCapacity(size + 1);
      base.buffer[size] := x;
      size := size + 1;
      Contents := Contents + [x];
      assert Contents == base.buffer[..size];
    }

    /** resize(n): shrinking keeps the first n elements and the storage;
        growing first expands the capacity by the growth rule if it is below
        n, keeps the old elements and exposes n - size new slots whose values
        are left as they are. */
    method Resize(newSize: nat)
      requires Valid()
      requires newSize > base.capacity ==>
        NewCapacity(base.capacity, newSize) <= MaxCapacity(base.elementSize)
      modifies Repr
      ensures Valid() && fresh(Repr - old(Repr))
      ensures size == newSize && |Contents| == newSize
      ensures newSize <= old(size) ==> Contents == old(Contents)[..newSize]
      ensures old(size) < newSize ==> Contents[..old(size)] == old(Contents)
      ensures base.capacity ==
        if newSize <= old(base.capacity) then old(base.capacity)
        else NewCapacity(old(base.capacity), newSize)
      ensures newSize <= old(base.capacity) ==> base.buffer == old(base.buffer)
      ensures old(base.capacity) < newSize ==> fresh(base.buffer)
    {
      if size >= newSize {
        // destruct [newSize, size): no effect on element values
      } else {
        if newSize > base.capacity {
          ExpandCapacity(newSize);
        }
        // initialize [size, newSize): no effect on element values
      }
      size := newSize;
      Contents := if base.buffer == null then [] else base.buffer[..newSize];
    }

    /** shrink(n): n <= size is required; keeps the first n elements and
        leaves the storage alone. */
    method Shrink(newSize: nat)
      requires Valid() && newSize <= size
      modifies this
      ensures Valid() && Repr == old(Repr)
      ensures size == newSize && Contents == old(Contents)[..newSize]
      ensures base.capacity == old(base.capacity) && base.buffer == old(base.buffer)
    {
      // destruct [newSize, size): no effect on element values
      size := newSize;
      Contents := if base.buffer == null then [] else base.buffer[..newSize];
    }

    /** ~Vector(): drops the live elements, then the storage is released. */
    method Destroy()
      requires Valid()
      modifies Repr
      ensures Valid() && Repr == old(Repr)
      ensures size == 0 && Contents == []
      ensures base.capacity == 0 && base.buffer == null
    {
      if size > 0 {
        Shrink(0);
      }
      base.DeallocateBuffer();
    }

    /** operator=(other), with its intended meaning: afterwards this vector
        holds other's elements. The current buffer is kept when it can hold
        them; otherwise it is released and the growth rule is applied to
        other's capacity. */
    method Assign(other: Vector<T>)
      requires Valid() && other.Valid()
      requires Repr !! other.Repr
      requires other.base.elementSize == base.elementSize
      requires base.capacity < other.size ==>
        NewCapacity(0, other.base.capacity) <= MaxCapacity(base.elementSize)
      modifies Repr
      ensures Valid() && fresh(Repr - old(Repr))
      ensures Contents == other.Contents && size == other.size
      ensures base.capacity ==
        if old(base.capacity) >= other.size then old(base.capacity)
        else NewCapacity(0, other.base.capacity)
      ensures old(base.capacity) >= other.size ==> base.buffer == old(base.buffer)
      ensures old(base.capacity) < other.size ==> fresh(base.buffer)
      ensures other.Valid() && other.Contents == old(other.Contents)
    {
      if base.capacity >= other.size {
        // destruct [0, size): no effect on element values
      } else {
        base.DeallocateBuffer();
        size := 0;
        Contents := [];
        ExpandCapacity(other.base.capacity);
      }
      VectorOperations.Copy(other.base.buffer, other.size, base.buffer);
      size := other.size;
      Contents := other.Contents;
    }
  }
}

=== FILE: vector_base.dfy ===
/** my::VectorBase: the raw storage of a vector, an owned buffer together with
    its capacity. It knows nothing of how many slots hold live elements. */
module Storage {
  import opened Growth

  class VectorBase<T(0)> {
    /** sizeof(T), which bounds the capacity that can be allocated. */
    const elementSize: ElementSize
    /** m_buffer: null exactly when nothing is allocated. */
    var buffer: array?<T>
    /** m_capacity: the number of slots of the buffer. */
    var capacity: nat

    /** The storage invariant: no buffer goes with capacity 0, and a buffer
        has exactly `capacity` slots, a count that can be allocated. */
    ghost predicate Valid()
      reads this
    {
      capacity <= MaxCapacity(elementSize) &&
      (buffer == null <==> capacity == 0) &&
      (buffer != null ==> buffer.Length == capacity)
    }

    /** The set holding the buffer, if there is one. */
    ghost function BufferSet(): set<object>
      reads this
    {
      if buffer == null then {} else var b: array<T> := buffer; {b}
    }

    /** VectorBase(): no buffer and capacity 0. */
    constructor (elementSize: ElementSize)
      ensures Valid() && this.elementSize == elementSize
      ensures buffer == null && capacity == 0
    {
      this.elementSize := elementSize;
      buffer := null;
      capacity := 0;
    }

    /** VectorBase(capacity): allocates a buffer of exactly `capacity` slots
        unless `capacity` is 0. */
    constructor WithCapacity(elementSize: ElementSize, capacity: nat)
      requires capacity <= MaxCapacity(elementSize)
      ensures Valid() && this.elementSize == elementSize
      ensures this.capacity == capacity
      ensures buffer != null ==> fresh(buffer)
    {
      this.elementSize := elementSize;
      buffer := null;
      this.capacity := capacity;
      new;
      if this.capacity > 0 {
        AllocateBuffer(capacity);
      }
    }

    /** allocateBuffer(n): n must be positive and n * sizeof(T) must fit an
        `unsigned`; afterwards a new buffer of exactly n slots is held and the
        capacity is n. Whatever buffer was held before is not released here. */
    method AllocateBuffer(newCapacity: nat)
      requires 0 < newCapacity <= MaxCapacity(elementSize)
      modifies this
      ensures Valid()
      ensures capacity == newCapacity
      ensures buffer != null && fresh(buffer)
    {
      capacity := newCapacity;
      buffer := new T[newCapacity];
    }

    /** deallocateBuffer(): releases the buffer; none is held afterwards and
        the capacity is 0. */
    method DeallocateBuffer()
      modifies this
      ensures Valid()
      ensures buffer == null && capacity == 0
    {
      buffer := null;
      capacity := 0;
    }
  }
}

=== FILE: vector_operations.dfy ===
/** The typed range operations of my::VectorOperations. With value semantics
    only `copy` has an observable effect; `initialize` and `destruct` leave
    every element value as it was. */
module VectorOperations {

  /** copy(begin, end, dest): copies the `count` live elements src[0, count)
      into dst[0, count), front to back, and touches nothing else of dst.
      Either block may be absent (a null pointer) when the range is empty.
      The bulk memcpy path and the element-wise path give the same values,
      so one loop stands for both. The ranges must not overlap. */
  method Copy<T>(src: array?<T>, count: nat, dst: array?<T>)
    requires src == null ==> count == 0
    requires dst == null ==> count == 0
    requires src != null ==> count <= src.Length
    requires dst != null ==> count <= dst.Length
    requires src != null && dst != null ==> src != dst
    modifies dst
    ensures src != null && dst != null ==> dst[..count] == src[..count]
    ensures dst != null ==> dst[count..] == old(dst[count..])
  {
    var i := 0;
    while i < count
      invariant i <= count
      invariant count > 0 ==> src != null && dst != null
      invariant count > 0 ==> forall j :: 0 <= j < i ==> dst[j] == src[j]
      invariant dst != null ==> dst[count..] == old(dst[count..])
    {
      dst[i] := src[i];
      i := i + 1;
    }
    if src != null && dst != null {
      assert dst[..count] == src[..count];
    }
  }
}
